=== FILE: README.md ===
# MetadataBuilder: find-or-create metadata references, in Dafny

This project models the reference resolver of the Datadog .NET tracer's native CLR profiler
(`src/Datadog.Trace.ClrProfiler.Native/metadata_builder.cpp`). The profiler uses
`MetadataBuilder` to give a target module metadata references that point at external wrapper
types and methods:

- assembly refs, keyed by assembly name;
- type refs, keyed by resolution scope and type name;
- member refs, keyed by parent type ref, method name and exact signature bytes.

Resolved tokens are kept in two per-module caches. The wrapper-parent cache holds type refs and
the wrapper-member cache holds member refs.

The model is functional. The module's metadata tables and the per-module record
(`ModuleMetadata`: the module's assembly name, the foundational `type_refs`, the two caches) form
an immutable `State`. Each operation is a function that returns a `Step`: the HRESULT it returns
and the state it leaves.

- `optional.dfy`: `Option`.
- `assembly_metadata.dfy`: an assembly reference and how `EmitAssemblyRef` encodes it for the emitter. The locale "neutral" becomes a null locale of length 0. Any other locale keeps its own length as a wide string: its count of UTF-16 code units, as a DWORD. The public-key length is 0 for the default (all-zero) key and 8 otherwise. Each encoding comes with the decoding a reader applies, and the encoders are proved to round-trip.
- `metadata_store.dfy`: the runtime's metadata import/emit interfaces, as an abstract store. It has keyed tables, a fresh-token counter, find operations that answer found / record-not-found (0x80131130) / other failure, and define operations that return the existing token for a key already present. A fixed fault oracle (`Faults`) says which host calls fail.
- `metadata_builder.dfy`: the constructor (system-assembly alias choice and the foundational type refs), `EmitAssemblyRef`, `FindTypeReference`, `StoreMethodReference` and `StoreMethodAdvice`.
- `builder_properties.dfy`: properties that relate several calls:
  - idempotence of every operation, and n calls ending as one call does;
  - cache hits read no metadata;
  - same-assembly types need no lookup;
  - early failures never reach the member-ref lookup;
  - the enter reference's failure means the exit reference is never looked at;
  - the caches stay coherent with the tables.

Where the code does less than a find-or-create resolver is usually taken to do, the model follows the code:

- `EmitAssemblyRef` does not search for an existing assembly ref before defining one. In the model, a second definition for the same name returns the existing row, because the store is keyed by name.
- `FindTypeReference` does not create a missing assembly ref. For a cross-assembly type whose assembly has no ref it fails with E_FAIL (`AssemblyRefMissing`). `StoreMethodReference` does emit the assembly ref first, and it does so even when the type lives in the module's own assembly.
- When no system-assembly alias has a ref, the constructor still defines System.Object and System.Exception, with a nil resolution scope (`NilScope`). Whether those definitions succeed is up to the host.
- A failed `StoreMethodReference` is not free of effects. The assembly ref it emitted, and a type ref it resolved together with its wrapper-parent cache entry, stay behind. Only the member table and the member cache are untouched (`FailedStoreKeepsAssemblyRef` shows a concrete case). `EmitAssemblyRef` and `FindTypeReference` themselves change nothing when they fail.

## Model

| member | source | states |
|---|---|---|
| AssemblyMetadata.EncodeAssemblyMetadata | src/Datadog.Trace.ClrProfiler.Native/metadata_builder.cpp:46-58 | the record carries the version unchanged; the locale is null with length 0 exactly when it is "neutral" and otherwise is the locale with its length in UTF-16 code units; decoding the record gives back the version and the locale |
| AssemblyMetadata.Utf16Length | src/Datadog.Trace.ClrProfiler.Native/metadata_builder.cpp:55-57 | the wide-string length of a locale lies between its character count and twice that, and equals the character count exactly when every character is in the Basic Multilingual Plane |
| AssemblyMetadata.DwordLength | src/Datadog.Trace.ClrProfiler.Native/metadata_builder.cpp:57 | the locale length cast to DWORD equals the UTF-16 length whenever that fits in 32 bits, and so the character count for a locale of the Basic Multilingual Plane |
| AssemblyMetadata.SupplementaryLocaleLength | src/Datadog.Trace.ClrProfiler.Native/metadata_builder.cpp:55-57 | a two-character locale whose second character lies beyond the Basic Multilingual Plane is passed with length 3 |
| AssemblyMetadata.PublicKeyBlob | src/Datadog.Trace.ClrProfiler.Native/metadata_builder.cpp:63-70 | the emitter reads a prefix of the key of that length, and decoding that prefix gives back the key |
| MetadataBuilder.FirstAliasIndex | src/Datadog.Trace.ClrProfiler.Native/metadata_builder.cpp:22-30 | the alias loop stops at the first alias that has an assembly ref, and finds none exactly when no alias has one |
| MetadataBuilder.SystemAssemblyScope | src/Datadog.Trace.ClrProfiler.Native/metadata_builder.cpp:22-30 | the system scope is the assembly ref of the first alias present, in the order System.Runtime, mscorlib, netstandard; it is nil exactly when none is present |
| MetadataBuilder.DefineFoundationalTypes | src/Datadog.Trace.ClrProfiler.Native/metadata_builder.cpp:32-41 | each name ends up recorded in type_refs exactly when it was already there or its definition succeeds; a recorded name maps to the type ref in the table; a failed definition leaves an entry already recorded for that name unchanged; names not in the list keep their entries; only the listed names' type refs in that scope may be added to the table; the caches and other tables stay the same |
| MetadataBuilder.Construct | src/Datadog.Trace.ClrProfiler.Native/metadata_builder.cpp:10-42 | System.Object and System.Exception are recorded exactly when their definition in the chosen system scope succeeds; they then map to the type ref in the chosen scope, which is that of the first present alias, or nil when none is present; a failed definition leaves an existing entry unchanged; only those two type refs may be added to the table; nothing but type_refs and type refs changes |
| MetadataBuilder.EmitAssemblyRef | src/Datadog.Trace.ClrProfiler.Native/metadata_builder.cpp:44-81 | succeeds exactly when the host's DefineAssemblyRef succeeds; on failure nothing changes; on success the name has an assembly ref, and a new row holds exactly the encoded record ("neutral" as a null locale of length 0) and the key blob (empty for the default key), which decode to the reference's version, locale and public key; the caches, type refs and member refs stay the same |
| MetadataBuilder.FindTypeReference | src/Datadog.Trace.ClrProfiler.Native/metadata_builder.cpp:83-132 | a cache hit returns the cached token and changes nothing; a missing assembly ref gives E_FAIL with nothing changed; otherwise success is exactly "define in module scope succeeds" for the own assembly, and "lookup does not fail, and the ref exists or its definition succeeds" for another assembly; an existing ref is reused and a new one gets a fresh token; at most that one type ref is added, and none when it already exists; a failure names the host call that failed (FindTypeRef or DefineTypeRef) and changes nothing; success caches the token under the key and writes no other entry |
| MetadataBuilder.ResolveMemberRef | src/Datadog.Trace.ClrProfiler.Native/metadata_builder.cpp:168-182 | succeeds exactly when the lookup does not fail and the member ref exists or its definition succeeds; an existing ref with the same parent, name and signature is reused; at most that one member ref is added; a failure names the host call that failed (FindMemberRef or DefineMemberRef) and leaves the tables unchanged |
| MetadataBuilder.StoreMethodReference | src/Datadog.Trace.ClrProfiler.Native/metadata_builder.cpp:149-192 | a cache hit succeeds with nothing changed; a failing assembly-ref definition aborts with nothing changed; after it, a failure of FindTypeReference is returned as is, and otherwise the call succeeds exactly when the member-ref lookup does not fail and the member ref exists or its definition succeeds, a failure naming the failing host call; at most one type ref (the type's key) and one member ref (under the resolved parent) are added; the assembly ref, type ref and wrapper-parent entry the earlier steps left stay whatever the member step does, and a member failure leaves exactly their state; success leaves the key cached, and on a miss it names the member ref under the cached parent type ref; failure writes no member ref and no member-cache entry; any call adds at most the type's assembly ref, its type-cache entry and its member-cache entry |
| MetadataBuilder.StoreMethodAdvice | src/Datadog.Trace.ClrProfiler.Native/metadata_builder.cpp:134-147 | the enter reference is stored first and its failure is returned as is; after a successful enter the advice is exactly storing exit in the state enter left; the advice succeeds exactly when enter succeeds and then exit succeeds; on success both keys are cached |
| BuilderProperties.EmitAssemblyRefIdempotent | src/Datadog.Trace.ClrProfiler.Native/metadata_builder.cpp:44-81 | emitting the same assembly ref a second time gives the same outcome and changes nothing |
| BuilderProperties.FindTypeReferenceIdempotent | src/Datadog.Trace.ClrProfiler.Native/metadata_builder.cpp:83-132 | resolving the same type reference a second time returns the same token, or the same failure, and changes nothing |
| BuilderProperties.StoreMethodReferenceIdempotent | src/Datadog.Trace.ClrProfiler.Native/metadata_builder.cpp:149-192 | storing the same method reference a second time gives the same outcome and changes nothing, after a success and after a failure at any step |
| BuilderProperties.FindTypeReferenceRepeated | src/Datadog.Trace.ClrProfiler.Native/metadata_builder.cpp:85-131 | resolving the same type reference n times ends exactly as resolving it once: one token, and at most one definition |
| BuilderProperties.StoreMethodReferenceRepeated | src/Datadog.Trace.ClrProfiler.Native/metadata_builder.cpp:151-191 | storing the same method reference n times ends exactly as storing it once: one member ref, and at most one definition |
| BuilderProperties.StoreMethodAdviceIdempotent | src/Datadog.Trace.ClrProfiler.Native/metadata_builder.cpp:134-147 | storing the same advice a second time gives the same outcome and changes nothing |
| BuilderProperties.ConstructIdempotent | src/Datadog.Trace.ClrProfiler.Native/metadata_builder.cpp:10-42 | constructing a second builder over the module a first builder left changes nothing more |
| BuilderProperties.FindTypeReferenceCacheHitReadsNoMetadata | src/Datadog.Trace.ClrProfiler.Native/metadata_builder.cpp:85-92 | on a type-cache hit the cached token is returned and the state is kept, whatever the host would answer |
| BuilderProperties.SameAssemblyTypeSkipsLookups | src/Datadog.Trace.ClrProfiler.Native/metadata_builder.cpp:99-102 | for a type of the module's own assembly the outcome does not depend on the assembly refs present, nor on FindTypeRef's behaviour |
| BuilderProperties.StoreMethodReferenceCacheHitReadsNoMetadata | src/Datadog.Trace.ClrProfiler.Native/metadata_builder.cpp:151-157 | on a member-cache hit the call succeeds with nothing changed, whatever the host would answer |
| BuilderProperties.EarlyFailureSkipsMemberLookup | src/Datadog.Trace.ClrProfiler.Native/metadata_builder.cpp:159-166 | when the call fails before the member-ref step, the member-ref lookup and definition have no bearing on its outcome or state |
| BuilderProperties.AdviceEnterFailureSkipsExit | src/Datadog.Trace.ClrProfiler.Native/metadata_builder.cpp:136-139 | when the enter reference fails, the advice returns that failure, whatever the exit reference is |
| BuilderProperties.FindTypeReferencePreservesCoherent | src/Datadog.Trace.ClrProfiler.Native/metadata_builder.cpp:116-131 | if every cached token is a row of its table before the call, it still is after, and a returned token is a type ref of the module |
| BuilderProperties.StoreMethodReferencePreservesCoherent | src/Datadog.Trace.ClrProfiler.Native/metadata_builder.cpp:171-190 | every member token the wrapper-member cache holds after the call is a member ref of the module |
| BuilderProperties.StoreMethodAdvicePreservesCoherent | src/Datadog.Trace.ClrProfiler.Native/metadata_builder.cpp:134-147 | storing advice keeps the caches coherent with the tables |
| BuilderProperties.ConstructPreservesCoherent | src/Datadog.Trace.ClrProfiler.Native/metadata_builder.cpp:34-41 | every token the constructor records in type_refs is a type ref of the module |
| BuilderProperties.FailedStoreKeepsAssemblyRef | src/Datadog.Trace.ClrProfiler.Native/metadata_builder.cpp:159-166 | a StoreMethodReference that fails at the type-ref definition still leaves the assembly ref it emitted |

## Left out

- The runtime's metadata interfaces (IMetaDataImport2, IMetaDataEmit, IMetaDataAssemblyImport/Emit) are not part of this model. The model assumes their observable contract: a define for a key already present returns the existing row, and a failing call writes nothing. Which calls fail is a fixed parameter (`Faults`), so failures are deterministic. The idempotence lemmas after a failure hold for such a host and not for transient failures.
- `FindAssemblyRef` (in `clr_helpers`) is not part of this model. It is modelled as a lookup by name that yields nil when there is none.
- The cache-key builders `get_type_cache_key` and `get_method_cache_key` are not part of this model. A `KeyScheme` supplies them as opaque functions, and nothing assumes they are injective.
- The header that defines `trace::PublicKey`, `AssemblyReference` and `MethodAdvice` is not part of this model. The public key is modelled as 8 bytes whose default value is all zeros, matching the 8 passed as its size. The enter and exit references are modelled as two fields.
- HRESULT values are reduced to success, E_FAIL for a missing assembly ref (`AssemblyRefMissing`), and a failure that names the host call it came from. Record-not-found never leaves the builder: it only triggers a definition.
- Assembly refs are keyed by name only, so a second definition with the same name but another version, locale or key returns the first row. The hash blob and the flags passed to DefineAssemblyRef are always null/0 and are not modelled. Nor are the processor and OS fields of the zero-initialised ASSEMBLYMETADATA record (`rProcessor`, `ulProcessor`, `rOS`, `ulOS`), which are always null/0.
- Logging (`LOG_APPEND`, `LOG_IFFAILEDRET`) is left out: it has no effect on results or state.
- Locking and concurrency are left out: metadata_builder.cpp takes no locks, and the model is sequential.
- Tokens are natural numbers from one counter, without the CLR's table-tag bits. Nil tokens appear only as `None` and `NilScope`.
- AssemblyMetadata.EncodeAssemblyMetadata: the locale length is stated only for locales shorter than 2^32 UTF-16 code units. Longer ones wrap modulo 2^32, as `DwordLength` computes, and no contract states that. Strings are sequences of Unicode scalar values, and the wide-string length is computed from them by `Utf16Length`; an ill-formed wide string (an unpaired surrogate) cannot be represented.
- Signatures of 2^32 bytes or more are not modelled. metadata_builder.cpp:174 and :181 pass the signature size cast to DWORD, so a longer signature would be truncated there; the model keys member refs by the full byte sequence.

=== FILE: assembly_metadata.dfy ===
/**
 An assembly reference as the profiler describes it, and the way it is encoded into the
 record handed to the metadata emitter when a new assembly ref is defined
 (metadata_builder.cpp, EmitAssemblyRef).
 */
module AssemblyMetadata {
  import opened Optional

  newtype byte = x: int | 0 <= x < 0x100

  type u16 = x: nat | x < 0x1_0000

  /** A DWORD: the width of the length fields of the emitter's record. */
  type u32 = x: nat | x < 0x1_0000_0000

  /** A public key token: always eight bytes. */
  type PublicKey = s: seq<byte> | |s| == 8 witness [0, 0, 0, 0, 0, 0, 0, 0]

  /** The default-constructed key, which stands for "no public key". */
  const DefaultPublicKey: PublicKey := [0, 0, 0, 0, 0, 0, 0, 0]

  /** The locale name that stands for "no locale". */
  const NeutralLocale: string := "neutral"

  datatype Version = Version(major: u16, minor: u16, build: u16, revision: u16)

  datatype AssemblyReference = AssemblyReference(
    name: string,
    version: Version,
    locale: string,
    publicKey: PublicKey)

  /** The ASSEMBLYMETADATA record: `locale` is None where the source passes null. */
  datatype EncodedMetadata = EncodedMetadata(
    majorVersion: u16,
    minorVersion: u16,
    buildNumber: u16,
    revisionNumber: u16,
    locale: Option<string>,
    localeLength: u32)

  /** What a reader of the record takes the locale to be: a null locale is the neutral one. */
  function DecodeLocale(m: EncodedMetadata): string {
    match m.locale
    case None => NeutralLocale
    case Some(l) => l
  }

  function DecodeVersion(m: EncodedMetadata): Version {
    Version(m.majorVersion, m.minorVersion, m.buildNumber, m.revisionNumber)
  }

  /** A character of the Basic Multilingual Plane: one UTF-16 code unit. */
  predicate InBmp(c: char) {
    c as int < 0x1_0000
  }

  /**
   The length of `s` as a wide string: the number of UTF-16 code units that encode it, one for a
   character of the Basic Multilingual Plane and two (a surrogate pair) for any other.
   */
  function Utf16Length(s: string): (n: nat)
    ensures |s| <= n <= 2 * |s|
    ensures n == |s| <==> forall i | 0 <= i < |s| :: InBmp(s[i])
  {
    if |s| == 0 then 0
    else (if InBmp(s[0]) then 1 else 2) + Utf16Length(s[1..])
  }

  /** The locale length is a DWORD count of UTF-16 code units: a count beyond 32 bits wraps. */
  function DwordLength(s: string): (n: u32)
    ensures Utf16Length(s) < 0x1_0000_0000 ==> n == Utf16Length(s)
    ensures (forall i | 0 <= i < |s| :: InBmp(s[i])) && |s| < 0x1_0000_0000 ==> n == |s|
  {
    Utf16Length(s) % 0x1_0000_0000
  }

  /** Builds the emitter's record from an assembly reference. */
  function EncodeAssemblyMetadata(a: AssemblyReference): (m: EncodedMetadata)
    ensures DecodeVersion(m) == a.version
    ensures DecodeLocale(m) == a.locale
    ensures m.locale.None? <==> a.locale == NeutralLocale
    ensures m.locale.None? ==> m.localeLength == 0
    ensures m.locale.Some? && Utf16Length(a.locale) < 0x1_0000_0000 ==> m.localeLength == Utf16Length(a.locale)
  {
    var v := a.version;
    if a.locale == NeutralLocale then
      EncodedMetadata(v.major, v.minor, v.build, v.revision, None, 0)
    else
      EncodedMetadata(v.major, v.minor, v.build, v.revision, Some(a.locale), DwordLength(a.locale))
  }

  /** A locale with a character beyond the Basic Multilingual Plane: two characters, three code units. */
  lemma SupplementaryLocaleLength(v: Version)
    ensures EncodeAssemblyMetadata(AssemblyReference("lib", v, "x\U{10000}", DefaultPublicKey)).localeLength == 3
  {
  }

  /** The key length passed to the emitter: nothing for the default key, the whole token otherwise. */
  function PublicKeySize(k: PublicKey): (n: u32)
    ensures n == 0 <==> k == DefaultPublicKey
    ensures n == 0 || n == |k|
  {
    if k == DefaultPublicKey then 0 else 8
  }

  /** The bytes the emitter reads: the first PublicKeySize(k) bytes of the key. */
  function PublicKeyBlob(k: PublicKey): (b: seq<byte>)
    ensures |b| == PublicKeySize(k)
    ensures b == k[..|b|]
    ensures DecodePublicKey(b) == k
  {
    k[..PublicKeySize(k)]
  }

  /** What a reader of the assembly ref takes the key to be: an empty blob is the default key. */
  function DecodePublicKey(b: seq<byte>): PublicKey {
    if |b| == 8 then b else DefaultPublicKey
  }
}

=== FILE: builder_properties.dfy ===
/**
 Properties that relate several calls of the MetadataBuilder operations: idempotence, what a
 cache hit does not read, what an early failure does not reach, and the coherence of the
 caches with the metadata tables.
 */
module BuilderProperties {
  import opened Optional
  import opened AssemblyMetadata
  import opened MetadataStore
  import opened MetadataBuilder

  // ---------------------------------------------------------------- idempotence

  /** Asking for the same assembly ref again succeeds or fails as before and changes nothing. */
  lemma EmitAssemblyRefIdempotent(env: Env, st: State, a: AssemblyReference)
    ensures var r := EmitAssemblyRef(env, st, a);
            EmitAssemblyRef(env, r.state, a) == r
  {
  }

  /** Resolving the same type reference again gives the same token and leaves the state as it was. */
  lemma FindTypeReferenceIdempotent(env: Env, st: State, tr: TypeReference)
    ensures var r := FindTypeReference(env, st, tr);
            FindTypeReference(env, r.state, tr) == r
  {
  }

  /**
   Storing the same method reference again gives the same outcome and leaves the state as it was:
   after a success the cache answers, and after a failure every step that succeeded the first time
   is answered by the row or cache entry it left, so the same step fails in the same way.
   */
  lemma {:induction false} StoreMethodReferenceIdempotent(env: Env, st: State, mr: MethodReference)
    ensures var r := StoreMethodReference(env, st, mr);
            StoreMethodReference(env, r.state, mr) == r
  {
    var r := StoreMethodReference(env, st, mr);
    var tr := mr.typeReference;
    if env.keys.methodKey(mr) in st.metadata.wrapperMembers || r.result.Pass? {
      return;
    }
    var emitted := EmitAssemblyRef(env, st, tr.assembly);
    if emitted.result.Fail? {
      return;
    }
    // the assembly ref emitted the first time is there, so the second emission changes nothing
    var found := FindTypeReference(env, emitted.state, tr);
    assert EmitAssemblyRef(env, r.state, tr.assembly) == Step(Pass, r.state);
    match found.result
    case Err(_) =>
      assert r.state == emitted.state;
    case Ok(parent) =>
      // the parent type is now cached, and the member step meets the same tables again
      assert FindTypeReference(env, r.state, tr) == Step(Ok(parent), r.state);
      var key := MemberRefKey(parent, mr.methodName, mr.signature);
      assert ResolveMemberRef(env.faults, found.state.tables, key).tables == r.state.tables;
  }

  /** The state and outcome of the last of `n` successive FindTypeReference calls for `tr`. */
  function FindTypeReferenceTimes(env: Env, st: State, tr: TypeReference, n: nat): Step<Result<Token>>
    requires n >= 1
    decreases n
  {
    var r := FindTypeReference(env, st, tr);
    if n == 1 then r else FindTypeReferenceTimes(env, r.state, tr, n - 1)
  }

  /** Resolving a type reference n times answers like resolving it once: one token, defined at most once. */
  lemma {:induction false} FindTypeReferenceRepeated(env: Env, st: State, tr: TypeReference, n: nat)
    requires n >= 1
    ensures FindTypeReferenceTimes(env, st, tr, n) == FindTypeReference(env, st, tr)
    decreases n
  {
    if n > 1 {
      var r := FindTypeReference(env, st, tr);
      FindTypeReferenceIdempotent(env, st, tr);
      FindTypeReferenceRepeated(env, r.state, tr, n - 1);
    }
  }

  /** The state and outcome of the last of `n` successive StoreMethodReference calls for `mr`. */
  function StoreMethodReferenceTimes(env: Env, st: State, mr: MethodReference, n: nat): Step<Outcome>
    requires n >= 1
    decreases n
  {
    var r := StoreMethodReference(env, st, mr);
    if n == 1 then r else StoreMethodReferenceTimes(env, r.state, mr, n - 1)
  }

  /** Storing a method reference n times answers like storing it once: one member ref, defined at most once. */
  lemma {:induction false} StoreMethodReferenceRepeated(env: Env, st: State, mr: MethodReference, n: nat)
    requires n >= 1
    ensures StoreMethodReferenceTimes(env, st, mr, n) == StoreMethodReference(env, st, mr)
    decreases n
  {
    if n > 1 {
      var r := StoreMethodReference(env, st, mr);
      StoreMethodReferenceIdempotent(env, st, mr);
      StoreMethodReferenceRepeated(env, r.state, mr, n - 1);
    }
  }

  /** Storing the same advice again gives the same outcome and leaves the state as it was. */
  lemma StoreMethodAdviceIdempotent(env: Env, st: State, advice: MethodAdvice)
    ensures var r := StoreMethodAdvice(env, st, advice);
            StoreMethodAdvice(env, r.state, advice) == r
  {
    var r := StoreMethodAdvice(env, st, advice);
    var enter := StoreMethodReference(env, st, advice.enter);
    StoreMethodReferenceIdempotent(env, st, advice.enter);
    if enter.result.Fail? {
      return;
    }
    var exit := StoreMethodReference(env, enter.state, advice.exit);
    StoreMethodReferenceIdempotent(env, enter.state, advice.exit);
    // the enter key stays cached through the exit step, so the second enter is a cache hit
    assert env.keys.methodKey(advice.enter) in enter.state.metadata.wrapperMembers;
    assert StoreMethodReference(env, r.state, advice.enter) == Step(Pass, r.state);
  }

  /** Defining type refs that are all already recorded (or all fail) changes nothing. */
  lemma {:induction false} DefineFoundationalTypesFixedPoint(f: Faults, st: State, scope: Scope, names: seq<string>)
    requires forall n | n in names && TypeRefKey(scope, n) !in f.defineTypeRef ::
               && TypeRefKey(scope, n) in st.tables.typeRefs
               && n in st.metadata.typeRefs
               && st.metadata.typeRefs[n] == st.tables.typeRefs[TypeRefKey(scope, n)]
    ensures DefineFoundationalTypes(f, st, scope, names) == st
    decreases |names|
  {
    if |names| > 0 {
      var e := DefineTypeRefByName(f, st.tables, TypeRefKey(scope, names[0]));
      assert e.tables == st.tables;
      if e.result.Ok? {
        assert st.metadata.typeRefs[names[0] := e.result.value] == st.metadata.typeRefs;
      }
      assert forall n | n in names[1..] :: n in names;
      DefineFoundationalTypesFixedPoint(f, st, scope, names[1..]);
    }
  }

  /** Building a second MetadataBuilder over the same module changes nothing more. */
  lemma ConstructIdempotent(env: Env, st: State)
    ensures Construct(env, Construct(env, st)) == Construct(env, st)
  {
    var st' := Construct(env, st);
    assert SystemAssemblyScope(st'.tables) == SystemAssemblyScope(st.tables);
    DefineFoundationalTypesFixedPoint(env.faults, st', SystemAssemblyScope(st.tables), FoundationalTypeNames);
  }

  // ---------------------------------------------------------------- what a call does not read

  /** A type-cache hit reads neither the metadata tables nor the host: any tables and faults give the cached token. */
  lemma FindTypeReferenceCacheHitReadsNoMetadata(keys: KeyScheme, f: Faults, st: State, tr: TypeReference)
    requires keys.typeKey(tr) in st.metadata.wrapperParentTypes
    ensures FindTypeReference(Env(f, keys), st, tr).result == Ok(st.metadata.wrapperParentTypes[keys.typeKey(tr)])
    ensures FindTypeReference(Env(f, keys), st, tr).state == st
  {
  }

  /**
   A type of the module's own assembly is resolved without any assembly-ref or type-ref lookup:
   the outcome does not depend on the assembly refs present, nor on whether FindTypeRef would fail.
   */
  lemma SameAssemblyTypeSkipsLookups(env: Env, st: State, tr: TypeReference, assemblyRefs: map<string, AssemblyRow>, findFaults: set<TypeRefKey>)
    requires st.metadata.assemblyName == tr.assembly.name
    ensures var st2 := st.(tables := st.tables.(assemblyRefs := assemblyRefs));
            var env2 := env.(faults := env.faults.(findTypeRef := findFaults));
            && FindTypeReference(env2, st2, tr).result == FindTypeReference(env, st, tr).result
            && FindTypeReference(env2, st2, tr).state.tables.typeRefs == FindTypeReference(env, st, tr).state.tables.typeRefs
  {
  }

  /** A member-cache hit reads neither the metadata tables nor the host. */
  lemma StoreMethodReferenceCacheHitReadsNoMetadata(keys: KeyScheme, f: Faults, st: State, mr: MethodReference)
    requires keys.methodKey(mr) in st.metadata.wrapperMembers
    ensures StoreMethodReference(Env(f, keys), st, mr) == Step(Pass, st)
  {
  }

  /**
   A failure in EmitAssemblyRef or FindTypeReference comes before any member-ref lookup: the same
   call under a host whose member-ref calls behave differently has the same outcome and state.
   */
  lemma EarlyFailureSkipsMemberLookup(env: Env, st: State, mr: MethodReference, findFaults: set<MemberRefKey>, defineFaults: set<MemberRefKey>)
    requires StoreMethodReference(env, st, mr).result.Fail?
    requires StoreMethodReference(env, st, mr).result.failure
             !in {HostFailure(FindMemberRefCall), HostFailure(DefineMemberRefCall)}
    ensures var env2 := env.(faults := env.faults.(findMemberRef := findFaults, defineMemberRef := defineFaults));
            StoreMethodReference(env2, st, mr) == StoreMethodReference(env, st, mr)
  {
  }

  /** When the enter reference fails, the exit reference is never looked at. */
  lemma AdviceEnterFailureSkipsExit(env: Env, st: State, advice: MethodAdvice, otherExit: MethodReference)
    requires StoreMethodReference(env, st, advice.enter).result.Fail?
    ensures StoreMethodAdvice(env, st, advice) == StoreMethodAdvice(env, st, advice.(exit := otherExit))
    ensures StoreMethodAdvice(env, st, advice).result == StoreMethodReference(env, st, advice.enter).result
  {
  }

  // ---------------------------------------------------------------- coherence of the caches

  /** Every type token FindTypeReference returns or caches is a type ref of the module. */
  lemma FindTypeReferencePreservesCoherent(env: Env, st: State, tr: TypeReference)
    requires Coherent(st)
    ensures var r := FindTypeReference(env, st, tr);
            && Coherent(r.state)
            && (r.result.Ok? ==> r.result.value in r.state.tables.typeRefs.Values)
  {
  }

  /** Every member token StoreMethodReference caches is a member ref of the module. */
  lemma StoreMethodReferencePreservesCoherent(env: Env, st: State, mr: MethodReference)
    requires Coherent(st)
    ensures Coherent(StoreMethodReference(env, st, mr).state)
  {
  }

  lemma StoreMethodAdvicePreservesCoherent(env: Env, st: State, advice: MethodAdvice)
    requires Coherent(st)
    ensures Coherent(StoreMethodAdvice(env, st, advice).state)
  {
    StoreMethodReferencePreservesCoherent(env, st, advice.enter);
    var enter := StoreMethodReference(env, st, advice.enter);
    StoreMethodReferencePreservesCoherent(env, enter.state, advice.exit);
  }

  /** The constructor records only tokens of type refs it defined. */
  lemma ConstructPreservesCoherent(env: Env, st: State)
    requires Coherent(st)
    ensures Coherent(Construct(env, st))
  {
  }

  // ---------------------------------------------------------------- a failed store is not free

  /**
   A failed StoreMethodReference can leave metadata behind: here the assembly ref is defined and
   then the type-ref definition fails, and the new assembly ref stays.
   */
  lemma FailedStoreKeepsAssemblyRef()
    ensures var keys := KeyScheme((tr: TypeReference) => tr.typeName, (mr: MethodReference) => mr.methodName);
            var asm := AssemblyReference("Wrappers", Version(1, 0, 0, 0), NeutralLocale, DefaultPublicKey);
            var mr := MethodReference(TypeReference(asm, "Wrapper"), "Enter", []);
            var f := Faults({}, {}, {TypeRefKey(ModuleScope, "Wrapper")}, {}, {});
            var st := State(Tables(map[], map[], map[], 0), ModuleMetadata("Wrappers", map[], map[], map[]));
            var r := StoreMethodReference(Env(f, keys), st, mr);
            && r.result == Fail(HostFailure(DefineTypeRefCall))
            && "Wrappers" in r.state.tables.assemblyRefs
            && r.state != st
  {
  }
}

=== FILE: metadata_builder.dfy ===
/**
 The find-or-create logic of the profiler's MetadataBuilder (metadata_builder.cpp): it gives a
 target module the assembly refs, type refs and member refs that point at wrapper types and
 methods, and remembers what it resolved in two per-module caches.

 Every operation is a pure function from the current State to a Step: the HRESULT it returns
 and the State it leaves. The cache keys are computed by code that is not part of this model,
 so a KeyScheme supplies them as opaque functions.
 */
module MetadataBuilder {
  import opened Optional
  import opened AssemblyMetadata
  import opened MetadataStore

  datatype TypeReference = TypeReference(assembly: AssemblyReference, typeName: string)

  datatype MethodReference = MethodReference(
    typeReference: TypeReference,
    methodName: string,
    signature: seq<byte>)

  /** The pair of wrapper methods called on entry to and exit from an instrumented method. */
  datatype MethodAdvice = MethodAdvice(enter: MethodReference, exit: MethodReference)

  datatype KeyScheme = KeyScheme(
    typeKey: TypeReference -> CacheKey,
    methodKey: MethodReference -> CacheKey)

  /** What the builder cannot change: the host's failures and the cache-key functions. */
  datatype Env = Env(faults: Faults, keys: KeyScheme)

  /**
   The per-module record: the module's own assembly name, the foundational type refs by type
   name, the wrapper-parent type cache and the wrapper-member cache.
   */
  datatype ModuleMetadata = ModuleMetadata(
    assemblyName: string,
    typeRefs: map<string, Token>,
    wrapperParentTypes: map<CacheKey, Token>,
    wrapperMembers: map<CacheKey, Token>)

  datatype State = State(tables: Tables, metadata: ModuleMetadata)

  /** An HRESULT as the builder returns it: S_OK, or the first failure met. */
  datatype Outcome = Pass | Fail(failure: Failure)

  datatype Step<+R> = Step(result: R, state: State)

  /** The names the standard library's assembly goes by, most preferred first. */
  const SystemAssemblyAliases: seq<string> := ["System.Runtime", "mscorlib", "netstandard"]

  const FoundationalTypeNames: seq<string> := ["System.Object", "System.Exception"]

  /** The builder only adds: metadata rows and cache entries, once there, stay as they are. */
  ghost predicate StateExtends(st: State, st': State) {
    && TablesExtend(st.tables, st'.tables)
    && st'.metadata.assemblyName == st.metadata.assemblyName
    && SubMap(st.metadata.wrapperParentTypes, st'.metadata.wrapperParentTypes)
    && SubMap(st.metadata.wrapperMembers, st'.metadata.wrapperMembers)
  }

  lemma StateExtendsTransitive(st0: State, st1: State, st2: State)
    requires StateExtends(st0, st1) && StateExtends(st1, st2)
    ensures StateExtends(st0, st2)
  {
  }

  /** Every cached token is a row of the matching metadata table, and the token counter is fresh. */
  ghost predicate Coherent(st: State) {
    && WellFormed(st.tables)
    && (forall n :: n in st.metadata.typeRefs ==> st.metadata.typeRefs[n] in st.tables.typeRefs.Values)
    && (forall k :: k in st.metadata.wrapperParentTypes ==>
          st.metadata.wrapperParentTypes[k] in st.tables.typeRefs.Values)
    && (forall k :: k in st.metadata.wrapperMembers ==>
          st.metadata.wrapperMembers[k] in st.tables.memberRefs.Values)
  }

  // ---------------------------------------------------------------- construction

  /** `aliases[i]` is the first of the aliases that has an assembly ref. */
  ghost predicate FirstPresentAlias(t: Tables, aliases: seq<string>, i: int) {
    && 0 <= i < |aliases|
    && aliases[i] in t.assemblyRefs
    && forall j | 0 <= j < i :: aliases[j] !in t.assemblyRefs
  }

  /** The index at which the constructor's alias loop breaks, if it does. */
  function FirstAliasIndex(t: Tables, aliases: seq<string>): (r: Option<nat>)
    ensures r.None? <==> forall i | 0 <= i < |aliases| :: aliases[i] !in t.assemblyRefs
    ensures r.Some? ==> FirstPresentAlias(t, aliases, r.value)
    decreases |aliases|
  {
    if |aliases| == 0 then None
    else if FindAssemblyRef(t, aliases[0]).Some? then Some(0)
    else
      match FirstAliasIndex(t, aliases[1..])
      case None => None
      case Some(i) => Some(i + 1)
  }

  /** The resolution scope the constructor uses: the first alias found, or nil. */
  function SystemAssemblyScope(t: Tables): (s: Scope)
    ensures s.NilScope? <==> forall i | 0 <= i < |SystemAssemblyAliases| :: SystemAssemblyAliases[i] !in t.assemblyRefs
    ensures !s.ModuleScope?
    ensures forall i | FirstPresentAlias(t, SystemAssemblyAliases, i) ::
              s == AssemblyScope(t.assemblyRefs[SystemAssemblyAliases[i]].token)
  {
    match FirstAliasIndex(t, SystemAssemblyAliases)
    case None => NilScope
    case Some(i) => AssemblyScope(t.assemblyRefs[SystemAssemblyAliases[i]].token)
  }

  /** Defines each named type ref in `scope`, recording it by name only when the definition succeeds. */
  function DefineFoundationalTypes(f: Faults, st: State, scope: Scope, names: seq<string>): (st': State)
    ensures forall n | n in names ::
              n in st'.metadata.typeRefs <==> n in st.metadata.typeRefs || TypeRefKey(scope, n) !in f.defineTypeRef
    ensures forall n | n in names && TypeRefKey(scope, n) !in f.defineTypeRef ::
              TypeRefKey(scope, n) in st'.tables.typeRefs
              && st'.metadata.typeRefs[n] == st'.tables.typeRefs[TypeRefKey(scope, n)]
    ensures forall n | n !in names && n in st.metadata.typeRefs ::
              n in st'.metadata.typeRefs && st'.metadata.typeRefs[n] == st.metadata.typeRefs[n]
    // a failed definition leaves an entry already recorded for that name alone
    ensures forall n | n in names && TypeRefKey(scope, n) in f.defineTypeRef && n in st.metadata.typeRefs ::
              st'.metadata.typeRefs[n] == st.metadata.typeRefs[n]
    ensures st'.metadata.typeRefs.Keys <= st.metadata.typeRefs.Keys + set n | n in names
    // only the named type refs in `scope` may be added
    ensures st'.tables.typeRefs.Keys <= st.tables.typeRefs.Keys + set n | n in names :: TypeRefKey(scope, n)
    ensures st'.metadata.(typeRefs := st.metadata.typeRefs) == st.metadata
    ensures st'.tables.assemblyRefs == st.tables.assemblyRefs
    ensures st'.tables.memberRefs == st.tables.memberRefs
    ensures StateExtends(st, st')
    ensures WellFormed(st.tables) ==> WellFormed(st'.tables)
    decreases |names|
  {
    if |names| == 0 then st
    else
      var e := DefineTypeRefByName(f, st.tables, TypeRefKey(scope, names[0]));
      var st1 :=
        if e.result.Ok? then State(e.tables, st.metadata.(typeRefs := st.metadata.typeRefs[names[0] := e.result.value]))
        else st.(tables := e.tables);
      DefineFoundationalTypes(f, st1, scope, names[1..])
  }

  /** The constructor: pick the system assembly, then define System.Object and System.Exception in it. */
  function Construct(env: Env, st: State): (st': State)
    ensures forall n | n in FoundationalTypeNames ::
              n in st'.metadata.typeRefs
              <==> n in st.metadata.typeRefs || TypeRefKey(SystemAssemblyScope(st.tables), n) !in env.faults.defineTypeRef
    ensures forall i, n | FirstPresentAlias(st.tables, SystemAssemblyAliases, i) && n in FoundationalTypeNames ::
              var key := TypeRefKey(AssemblyScope(st.tables.assemblyRefs[SystemAssemblyAliases[i]].token), n);
              key !in env.faults.defineTypeRef ==>
                n in st'.metadata.typeRefs && key in st'.tables.typeRefs && st'.metadata.typeRefs[n] == st'.tables.typeRefs[key]
    // in whatever scope was chosen, nil included, a recorded name maps to its type ref in that scope
    ensures forall n | n in FoundationalTypeNames ::
              var key := TypeRefKey(SystemAssemblyScope(st.tables), n);
              key !in env.faults.defineTypeRef ==>
                n in st'.metadata.typeRefs && key in st'.tables.typeRefs && st'.metadata.typeRefs[n] == st'.tables.typeRefs[key]
    // a failed definition leaves an entry already recorded for that name alone
    ensures forall n | n in FoundationalTypeNames && n in st.metadata.typeRefs
                       && TypeRefKey(SystemAssemblyScope(st.tables), n) in env.faults.defineTypeRef ::
              st'.metadata.typeRefs[n] == st.metadata.typeRefs[n]
    ensures st'.metadata.typeRefs.Keys <= st.metadata.typeRefs.Keys + set n | n in FoundationalTypeNames
    ensures st'.tables.typeRefs.Keys
            <= st.tables.typeRefs.Keys + set n | n in FoundationalTypeNames :: TypeRefKey(SystemAssemblyScope(st.tables), n)
    ensures st'.metadata.(typeRefs := st.metadata.typeRefs) == st.metadata
    ensures st'.tables.assemblyRefs == st.tables.assemblyRefs
    ensures st'.tables.memberRefs == st.tables.memberRefs
    ensures StateExtends(st, st')
  {
    DefineFoundationalTypes(env.faults, st, SystemAssemblyScope(st.tables), FoundationalTypeNames)
  }

  // ---------------------------------------------------------------- assembly refs

  /** Defines an assembly ref for `a`, encoding its locale and public key for the emitter. */
  function EmitAssemblyRef(env: Env, st: State, a: AssemblyReference): (r: Step<Outcome>)
    ensures r.result.Pass? <==> a.name !in env.faults.defineAssemblyRef
    ensures r.result.Fail? ==> r == Step(Fail(HostFailure(DefineAssemblyRefCall)), st)
    ensures r.result.Pass? ==> a.name in r.state.tables.assemblyRefs
    ensures a.name !in st.tables.assemblyRefs && r.result.Pass? ==>
              var row := r.state.tables.assemblyRefs[a.name];
              && DecodeVersion(row.metadata) == a.version
              && DecodeLocale(row.metadata) == a.locale
              && DecodePublicKey(row.publicKey) == a.publicKey
    // the new row holds exactly the encoded record and key blob handed to the emitter
    ensures a.name !in st.tables.assemblyRefs && r.result.Pass? ==>
              && r.state.tables.assemblyRefs[a.name].metadata == EncodeAssemblyMetadata(a)
              && r.state.tables.assemblyRefs[a.name].publicKey == PublicKeyBlob(a.publicKey)
    ensures a.name in st.tables.assemblyRefs ==> r.state == st
    ensures r.state.metadata == st.metadata
    ensures r.state.tables.typeRefs == st.tables.typeRefs
    ensures r.state.tables.memberRefs == st.tables.memberRefs
    ensures r.state.tables.assemblyRefs.Keys <= st.tables.assemblyRefs.Keys + {a.name}
    ensures StateExtends(st, r.state)
    ensures WellFormed(st.tables) ==> WellFormed(r.state.tables)
  {
    var e := DefineAssemblyRef(env.faults, st.tables, a.name, PublicKeyBlob(a.publicKey), EncodeAssemblyMetadata(a));
    match e.result
    case Err(failure) => Step(Fail(failure), st.(tables := e.tables))
    case Ok(_) => Step(Pass, st.(tables := e.tables))
  }

  // ---------------------------------------------------------------- type refs

  /** Where a type ref for `tr` lives: the module itself, or the assembly ref of its assembly (None when that is missing). */
  function TypeRefScope(st: State, tr: TypeReference): (s: Option<Scope>)
    ensures st.metadata.assemblyName == tr.assembly.name ==> s == Some(ModuleScope)
    ensures st.metadata.assemblyName != tr.assembly.name ==>
              (s.Some? <==> tr.assembly.name in st.tables.assemblyRefs)
              && (s.Some? ==> s.value == AssemblyScope(st.tables.assemblyRefs[tr.assembly.name].token))
  {
    if st.metadata.assemblyName == tr.assembly.name then Some(ModuleScope)
    else
      match FindAssemblyRef(st.tables, tr.assembly.name)
      case None => None
      case Some(asm) => Some(AssemblyScope(asm))
  }

  /** The metadata half of FindTypeReference, after the cache missed. */
  function ResolveTypeRef(f: Faults, st: State, tr: TypeReference): (r: Emitted)
  {
    if st.metadata.assemblyName == tr.assembly.name then
      // the module's own assembly: define directly, with no lookup first
      DefineTypeRefByName(f, st.tables, TypeRefKey(ModuleScope, tr.typeName))
    else
      match FindAssemblyRef(st.tables, tr.assembly.name)
      case None => Emitted(Err(AssemblyRefMissing), st.tables)
      case Some(asm) =>
        var key := TypeRefKey(AssemblyScope(asm), tr.typeName);
        match FindTypeRef(f, st.tables, key)
        case Found(token) => Emitted(Ok(token), st.tables)
        case LookupFailed => Emitted(Err(HostFailure(FindTypeRefCall)), st.tables)
        case RecordNotFound => DefineTypeRefByName(f, st.tables, key)
  }

  /** Finds or creates the type ref for `tr`, through the wrapper-parent cache. */
  function FindTypeReference(env: Env, st: State, tr: TypeReference): (r: Step<Result<Token>>)
    // a cache hit answers from the cache alone
    ensures env.keys.typeKey(tr) in st.metadata.wrapperParentTypes ==>
              r == Step(Ok(st.metadata.wrapperParentTypes[env.keys.typeKey(tr)]), st)
    // a cross-assembly type whose assembly has no ref fails with E_FAIL
    ensures env.keys.typeKey(tr) !in st.metadata.wrapperParentTypes && TypeRefScope(st, tr).None? ==>
              r == Step(Err(AssemblyRefMissing), st)
    // on a miss, success is exactly: the scope exists and the host does not fail on the calls made
    ensures env.keys.typeKey(tr) !in st.metadata.wrapperParentTypes && TypeRefScope(st, tr).Some? ==>
              var key := TypeRefKey(TypeRefScope(st, tr).value, tr.typeName);
              && (r.result.Ok? <==>
                    if key.scope.ModuleScope? then key !in env.faults.defineTypeRef
                    else key !in env.faults.findTypeRef && (key in st.tables.typeRefs || key !in env.faults.defineTypeRef))
              && (r.result.Ok? ==> key in r.state.tables.typeRefs && r.state.tables.typeRefs[key] == r.result.value)
              && (key in st.tables.typeRefs && r.result.Ok? ==> r.result.value == st.tables.typeRefs[key])
              && (key !in st.tables.typeRefs && WellFormed(st.tables) && r.result.Ok? ==>
                    r.result.value !in st.tables.typeRefs.Values)
              // at most this one type ref is defined, and none when it already exists
              && r.state.tables.typeRefs.Keys <= st.tables.typeRefs.Keys + {key}
              && (key in st.tables.typeRefs ==> r.state.tables == st.tables)
              // the failing host call's HRESULT is the one returned
              && (r.result.Err? ==>
                    r.result.failure ==
                      if !key.scope.ModuleScope? && key in env.faults.findTypeRef then HostFailure(FindTypeRefCall)
                      else HostFailure(DefineTypeRefCall))
    // failure changes nothing; success caches the token under the key and writes nothing else
    ensures r.result.Err? ==> r.state == st
    ensures r.result.Ok? ==>
              r.state.metadata == st.metadata.(wrapperParentTypes := st.metadata.wrapperParentTypes[env.keys.typeKey(tr) := r.result.value])
    ensures r.state.tables.assemblyRefs == st.tables.assemblyRefs
    ensures r.state.tables.memberRefs == st.tables.memberRefs
    ensures StateExtends(st, r.state)
    ensures WellFormed(st.tables) ==> WellFormed(r.state.tables)
  {
    var cacheKey := env.keys.typeKey(tr);
    if cacheKey in st.metadata.wrapperParentTypes then
      Step(Ok(st.metadata.wrapperParentTypes[cacheKey]), st)
    else
      var e := ResolveTypeRef(env.faults, st, tr);
      match e.result
      case Err(failure) => Step(Err(failure), st.(tables := e.tables))
      case Ok(token) =>
        Step(Ok(token), State(e.tables, st.metadata.(wrapperParentTypes := st.metadata.wrapperParentTypes[cacheKey := token])))
  }

  // ---------------------------------------------------------------- member refs

  /** Finds the member ref with this parent, name and exact signature, defining it on "record not found". */
  function ResolveMemberRef(f: Faults, t: Tables, key: MemberRefKey): (r: Emitted)
    ensures r.result.Ok? <==> key !in f.findMemberRef && (key in t.memberRefs || key !in f.defineMemberRef)
    ensures r.result.Ok? ==> key in r.tables.memberRefs && r.tables.memberRefs[key] == r.result.value
    ensures key in t.memberRefs && r.result.Ok? ==> r.result.value == t.memberRefs[key]
    ensures r.result.Err? ==> r.tables == t
    ensures r.result.Err? ==>
              r.result.failure ==
                if key in f.findMemberRef then HostFailure(FindMemberRefCall) else HostFailure(DefineMemberRefCall)
    ensures key in t.memberRefs ==> r.tables == t
    ensures r.tables.memberRefs.Keys <= t.memberRefs.Keys + {key}
    ensures r.tables.assemblyRefs == t.assemblyRefs && r.tables.typeRefs == t.typeRefs
    ensures TablesExtend(t, r.tables)
    ensures WellFormed(t) ==> WellFormed(r.tables)
  {
    match FindMemberRef(f, t, key)
    case Found(token) => Emitted(Ok(token), t)
    case LookupFailed => Emitted(Err(HostFailure(FindMemberRefCall)), t)
    case RecordNotFound => DefineMemberRef(f, t, key)
  }

  /** Makes sure a member ref for `mr` exists and is in the wrapper-member cache. */
  function StoreMethodReference(env: Env, st: State, mr: MethodReference): (r: Step<Outcome>)
    // a cache hit succeeds at once
    ensures env.keys.methodKey(mr) in st.metadata.wrapperMembers ==> r == Step(Pass, st)
    // a failing assembly-ref definition aborts before anything else, changing nothing
    ensures env.keys.methodKey(mr) !in st.metadata.wrapperMembers
            && mr.typeReference.assembly.name in env.faults.defineAssemblyRef ==>
              r == Step(Fail(HostFailure(DefineAssemblyRefCall)), st)
    // past the assembly ref: a type-ref failure is returned as is; otherwise the member ref is found,
    // or defined on "record not found", and its failure is returned as is
    ensures env.keys.methodKey(mr) !in st.metadata.wrapperMembers
            && mr.typeReference.assembly.name !in env.faults.defineAssemblyRef ==>
              var emitted := EmitAssemblyRef(env, st, mr.typeReference.assembly);
              var found := FindTypeReference(env, emitted.state, mr.typeReference);
              && TypeRefScope(emitted.state, mr.typeReference).Some?
              && r.state.tables.typeRefs.Keys
                 <= st.tables.typeRefs.Keys + {TypeRefKey(TypeRefScope(emitted.state, mr.typeReference).value, mr.typeReference.typeName)}
              && (found.result.Err? ==> r == Step(Fail(found.result.failure), found.state))
              && (found.result.Ok? ==>
                    var key := MemberRefKey(found.result.value, mr.methodName, mr.signature);
                    && (r.result.Pass? <==>
                          key !in env.faults.findMemberRef
                          && (key in found.state.tables.memberRefs || key !in env.faults.defineMemberRef))
                    && (r.result.Fail? ==>
                          r.result.failure ==
                            if key in env.faults.findMemberRef then HostFailure(FindMemberRefCall)
                            else HostFailure(DefineMemberRefCall))
                    && r.state.tables.memberRefs.Keys <= st.tables.memberRefs.Keys + {key}
                    // what the assembly-ref and type-ref steps left stays, whatever the member step does
                    && (r.result.Fail? ==> r.state == found.state)
                    && r.state.tables.assemblyRefs == found.state.tables.assemblyRefs
                    && r.state.tables.typeRefs == found.state.tables.typeRefs
                    && r.state.metadata.wrapperParentTypes == found.state.metadata.wrapperParentTypes)
    // success: the key is cached, and on a miss it names the member ref under the cached parent type
    ensures r.result.Pass? ==> env.keys.methodKey(mr) in r.state.metadata.wrapperMembers
    ensures r.result.Pass? && env.keys.methodKey(mr) !in st.metadata.wrapperMembers ==>
              && env.keys.typeKey(mr.typeReference) in r.state.metadata.wrapperParentTypes
              && var key := MemberRefKey(r.state.metadata.wrapperParentTypes[env.keys.typeKey(mr.typeReference)],
                                         mr.methodName, mr.signature);
                 && key in r.state.tables.memberRefs
                 && r.state.metadata.wrapperMembers[env.keys.methodKey(mr)] == r.state.tables.memberRefs[key]
    // failure writes no member ref and no member cache entry
    ensures r.result.Fail? ==>
              && r.state.tables.memberRefs == st.tables.memberRefs
              && r.state.metadata.wrapperMembers == st.metadata.wrapperMembers
    // what any call may leave behind: at most one new assembly ref, type-cache entry and member-cache entry
    ensures r.state.tables.assemblyRefs.Keys <= st.tables.assemblyRefs.Keys + {mr.typeReference.assembly.name}
    ensures r.state.metadata.wrapperParentTypes.Keys <= st.metadata.wrapperParentTypes.Keys + {env.keys.typeKey(mr.typeReference)}
    ensures r.state.metadata.wrapperMembers.Keys <= st.metadata.wrapperMembers.Keys + {env.keys.methodKey(mr)}
    ensures r.state.metadata.typeRefs == st.metadata.typeRefs
    ensures StateExtends(st, r.state)
    ensures WellFormed(st.tables) ==> WellFormed(r.state.tables)
  {
    var cacheKey := env.keys.methodKey(mr);
    if cacheKey in st.metadata.wrapperMembers then
      Step(Pass, st)
    else
      var emitted := EmitAssemblyRef(env, st, mr.typeReference.assembly);
      if emitted.result.Fail? then emitted
      else
        var found := FindTypeReference(env, emitted.state, mr.typeReference);
        match found.result
        case Err(failure) => Step(Fail(failure), found.state)
        case Ok(parent) =>
          var e := ResolveMemberRef(env.faults, found.state.tables, MemberRefKey(parent, mr.methodName, mr.signature));
          match e.result
          case Err(failure) => Step(Fail(failure), found.state.(tables := e.tables))
          case Ok(token) =>
            var metadata := found.state.metadata;
            Step(Pass, State(e.tables, metadata.(wrapperMembers := metadata.wrapperMembers[cacheKey := token])))
  }

  /** Stores the enter reference, then the exit reference, stopping at the first failure. */
  function StoreMethodAdvice(env: Env, st: State, advice: MethodAdvice): (r: Step<Outcome>)
    ensures StoreMethodReference(env, st, advice.enter).result.Fail? ==>
              r == StoreMethodReference(env, st, advice.enter)
    ensures StoreMethodReference(env, st, advice.enter).result.Pass? ==>
              r == StoreMethodReference(env, StoreMethodReference(env, st, advice.enter).state, advice.exit)
    ensures r.result.Pass? <==>
              && StoreMethodReference(env, st, advice.enter).result.Pass?
              && StoreMethodReference(env, StoreMethodReference(env, st, advice.enter).state, advice.exit).result.Pass?
    ensures r.result.Pass? ==>
              && env.keys.methodKey(advice.enter) in r.state.metadata.wrapperMembers
              && env.keys.methodKey(advice.exit) in r.state.metadata.wrapperMembers
    ensures r.state.metadata.typeRefs == st.metadata.typeRefs
    ensures StateExtends(st, r.state)
    ensures WellFormed(st.tables) ==> WellFormed(r.state.tables)
  {
    var enter := StoreMethodReference(env, st, advice.enter);
    if enter.result.Fail? then enter
    else
      var exit := StoreMethodReference(env, enter.state, advice.exit);
      StateExtendsTransitive(st, enter.state, exit.state);
      if exit.result.Fail? then exit
      else Step(Pass, exit.state)
  }
}

=== FILE: metadata_store.dfy ===
/**
 An abstract model of the module metadata the profiler reads and extends through the runtime's
 metadata import/emit interfaces. Those interfaces are not part of this model; what is kept is
 their observable contract as the builder uses it:
 - assembly refs keyed by name, type refs keyed by (resolution scope, name), member refs keyed by
   (parent type ref, name, signature bytes), and a counter that hands out fresh tokens;
 - a find operation answers with a token, "record not found", or another failure;
 - a define operation on a key already present returns the existing token (the emitter's
   duplicate check), and otherwise adds one row with a fresh token;
 - which host calls fail is a fixed fault oracle (`Faults`), so failures are deterministic.
 */
module MetadataStore {
  import opened Optional
  import opened AssemblyMetadata

  type Token = nat

  type CacheKey = string

  /** The resolution scope of a type ref: the module itself, an assembly ref, or nil. */
  datatype Scope = NilScope | ModuleScope | AssemblyScope(assemblyRef: Token)

  datatype TypeRefKey = TypeRefKey(scope: Scope, name: string)

  datatype MemberRefKey = MemberRefKey(parent: Token, name: string, signature: seq<byte>)

  datatype AssemblyRow = AssemblyRow(token: Token, publicKey: seq<byte>, metadata: EncodedMetadata)

  datatype Tables = Tables(
    assemblyRefs: map<string, AssemblyRow>,
    typeRefs: map<TypeRefKey, Token>,
    memberRefs: map<MemberRefKey, Token>,
    nextToken: Token)

  /** The host calls that fail, by the key they are asked about. */
  datatype Faults = Faults(
    defineAssemblyRef: set<string>,
    findTypeRef: set<TypeRefKey>,
    defineTypeRef: set<TypeRefKey>,
    findMemberRef: set<MemberRefKey>,
    defineMemberRef: set<MemberRefKey>)

  datatype HostCall =
    | DefineAssemblyRefCall
    | FindTypeRefCall
    | DefineTypeRefCall
    | FindMemberRefCall
    | DefineMemberRefCall

  /** A failed HRESULT: E_FAIL for a missing assembly ref, or the failure of one host call. */
  datatype Failure = AssemblyRefMissing | HostFailure(call: HostCall)

  datatype Result<+T> = Ok(value: T) | Err(failure: Failure)

  /** The answer of a find: a token, "record not found" (0x80131130), or another failure. */
  datatype Lookup = Found(token: Token) | RecordNotFound | LookupFailed

  /** The answer of a define together with the tables it leaves. */
  datatype Emitted = Emitted(result: Result<Token>, tables: Tables)

  ghost predicate SubMap<K, V>(m: map<K, V>, m': map<K, V>) {
    forall k :: k in m ==> k in m' && m'[k] == m[k]
  }

  /** Metadata only grows: no row is removed or changes its token, and the counter never goes back. */
  ghost predicate TablesExtend(t: Tables, t': Tables) {
    && t.nextToken <= t'.nextToken
    && SubMap(t.assemblyRefs, t'.assemblyRefs)
    && SubMap(t.typeRefs, t'.typeRefs)
    && SubMap(t.memberRefs, t'.memberRefs)
  }

  /** Every token in use lies below the counter, so the counter is always fresh. */
  ghost predicate WellFormed(t: Tables) {
    && (forall n :: n in t.assemblyRefs ==> t.assemblyRefs[n].token < t.nextToken)
    && (forall k :: k in t.typeRefs ==> t.typeRefs[k] < t.nextToken)
    && (forall k :: k in t.memberRefs ==> t.memberRefs[k] < t.nextToken)
  }

  /** Enumerates the assembly refs by name; nil (None) when there is none. */
  function FindAssemblyRef(t: Tables, name: string): (r: Option<Token>)
    ensures r.Some? <==> name in t.assemblyRefs
    ensures r.Some? ==> r.value == t.assemblyRefs[name].token
  {
    if name in t.assemblyRefs then Some(t.assemblyRefs[name].token) else None
  }

  function DefineAssemblyRef(f: Faults, t: Tables, name: string, publicKey: seq<byte>, md: EncodedMetadata): (r: Emitted)
    ensures r.result.Ok? <==> name !in f.defineAssemblyRef
    ensures r.result.Err? ==> r.tables == t && r.result.failure == HostFailure(DefineAssemblyRefCall)
    ensures r.result.Ok? ==> name in r.tables.assemblyRefs && r.tables.assemblyRefs[name].token == r.result.value
    ensures name in t.assemblyRefs ==> r.tables == t
    ensures name !in t.assemblyRefs && r.result.Ok? ==>
              r.tables.assemblyRefs[name] == AssemblyRow(r.result.value, publicKey, md)
    ensures r.tables.typeRefs == t.typeRefs && r.tables.memberRefs == t.memberRefs
    ensures r.tables.assemblyRefs.Keys <= t.assemblyRefs.Keys + {name}
    ensures TablesExtend(t, r.tables)
    ensures WellFormed(t) ==> WellFormed(r.tables)
  {
    if name in f.defineAssemblyRef then
      Emitted(Err(HostFailure(DefineAssemblyRefCall)), t)
    else if name in t.assemblyRefs then
      Emitted(Ok(t.assemblyRefs[name].token), t)
    else
      var row := AssemblyRow(t.nextToken, publicKey, md);
      Emitted(Ok(t.nextToken), t.(assemblyRefs := t.assemblyRefs[name := row], nextToken := t.nextToken + 1))
  }

  function FindTypeRef(f: Faults, t: Tables, key: TypeRefKey): (r: Lookup)
    ensures r.LookupFailed? <==> key in f.findTypeRef
    ensures r.Found? ==> key in t.typeRefs && r.token == t.typeRefs[key]
    ensures r.RecordNotFound? <==> key !in f.findTypeRef && key !in t.typeRefs
  {
    if key in f.findTypeRef then LookupFailed
    else if key in t.typeRefs then Found(t.typeRefs[key])
    else RecordNotFound
  }

  function DefineTypeRefByName(f: Faults, t: Tables, key: TypeRefKey): (r: Emitted)
    ensures r.result.Ok? <==> key !in f.defineTypeRef
    ensures r.result.Err? ==> r.tables == t && r.result.failure == HostFailure(DefineTypeRefCall)
    ensures r.result.Ok? ==> key in r.tables.typeRefs && r.tables.typeRefs[key] == r.result.value
    ensures key in t.typeRefs ==> r.tables == t
    ensures WellFormed(t) && key !in t.typeRefs && r.result.Ok? ==> r.result.value !in t.typeRefs.Values
    ensures r.tables.assemblyRefs == t.assemblyRefs && r.tables.memberRefs == t.memberRefs
    ensures r.tables.typeRefs.Keys <= t.typeRefs.Keys + {key}
    ensures TablesExtend(t, r.tables)
    ensures WellFormed(t) ==> WellFormed(r.tables)
  {
    if key in f.defineTypeRef then
      Emitted(Err(HostFailure(DefineTypeRefCall)), t)
    else if key in t.typeRefs then
      Emitted(Ok(t.typeRefs[key]), t)
    else
      Emitted(Ok(t.nextToken), t.(typeRefs := t.typeRefs[key := t.nextToken], nextToken := t.nextToken + 1))
  }

  function FindMemberRef(f: Faults, t: Tables, key: MemberRefKey): (r: Lookup)
    ensures r.LookupFailed? <==> key in f.findMemberRef
    ensures r.Found? ==> key in t.memberRefs && r.token == t.memberRefs[key]
    ensures r.RecordNotFound? <==> key !in f.findMemberRef && key !in t.memberRefs
  {
    if key in f.findMemberRef then LookupFailed
    else if key in t.memberRefs then Found(t.memberRefs[key])
    else RecordNotFound
  }

  function DefineMemberRef(f: Faults, t: Tables, key: MemberRefKey): (r: Emitted)
    ensures r.result.Ok? <==> key !in f.defineMemberRef
    ensures r.result.Err? ==> r.tables == t && r.result.failure == HostFailure(DefineMemberRefCall)
    ensures r.result.Ok? ==> key in r.tables.memberRefs && r.tables.memberRefs[key] == r.result.value
    ensures key in t.memberRefs ==> r.tables == t
    ensures WellFormed(t) && key !in t.memberRefs && r.result.Ok? ==> r.result.value !in t.memberRefs.Values
    ensures r.tables.assemblyRefs == t.assemblyRefs && r.tables.typeRefs == t.typeRefs
    ensures r.tables.memberRefs.Keys <= t.memberRefs.Keys + {key}
    ensures TablesExtend(t, r.tables)
    ensures WellFormed(t) ==> WellFormed(r.tables)
  {
    if key in f.defineMemberRef then
      Emitted(Err(HostFailure(DefineMemberRefCall)), t)
    else if key in t.memberRefs then
      Emitted(Ok(t.memberRefs[key]), t)
    else
      Emitted(Ok(t.nextToken), t.(memberRefs := t.memberRefs[key := t.nextToken], nextToken := t.nextToken + 1))
  }
}

=== FILE: optional.dfy ===
/** The conventional Some/None datatype, used where the source returns a nil token or null. */
module Optional {

  datatype Option<+T> = None | Some(value: T)
}
